=== FILE: README.md ===
# ClericTracker hit-point store, in Dafny

ClericTracker keeps a list of characters, each with a name, a maximum and a
current hit-point count. A small Flask server (`app.py`) owns the list and
answers create, update and delete requests. A browser script
(`static/js/app.js`) caches the list, validates what the user types, sends
the requests, patches its cache from the answers and draws a coloured HP bar
for each card.

This project models both halves as pure functions on immutable values:

- `wrappers.dfy` (`Wrappers`): the `Option` type.
- `text.dfy` (`Text`): whitespace trimming, parameterised by the space set. It
  covers Python's `str.strip()` (`PySpace`) and JavaScript's `trim()` (`JsSpace`).
- `records.dfy` (`Records`): the `Character` record, the hit-point invariant
  `maxHP > 0 && 0 <= currentHP <= maxHP`, id uniqueness, first-match lookup
  by id, filtering by id, and the server's clamp.
- `server.dfy` (`Server`): the three mutating routes. Each takes the loaded
  list and returns the list to save with the HTTP status. A numeric JSON
  field after `int()` coercion is `Field`: absent, refused, or an integer.
- `client.dfy` (`Client`): the browser state `(characters, selected)` and
  every command handler. Each handler maps the state, the user's input and
  the server's answer to three things: the request it sends (if any), the
  alert it raises (if any), and the new state.
- `display.dfy` (`Display`): the three-tier HP colour and the bar width, on
  exact reals. The IEEE results of dividing by a zero maximum are modelled too.
- `coherence.dfy` (`Coherence`): pairs each browser request with the server
  route that handles it. It proves that the cache equals the server's saved
  list after every request, and `Coherence.AriaScenario` checks one
  create-then-damage run end to end.

## Model

| member | source | states |
|---|---|---|
| `Text.Trim` | app.py:40 | the stripped name is the contiguous piece of the input after its leading space run, with no space at either end and only space after it; it is empty exactly when the input is all space |
| `Text.TrimIdempotent` | app.py:77-79 | stripping an already stripped name changes nothing |
| `Records.FindIndex` | app.py:71 | finds the first record with the id; None exactly when no record has it; no earlier record has the id |
| `Records.Without` | app.py:124 | the filtered list holds exactly the records of other ids and none with this id; with the id absent it is the list itself |
| `Records.WithoutAppend` | static/js/app.js:174 | filtering distributes over concatenation, so it keeps the survivors in their original order |
| `Records.WithoutUnique` | app.py:124 | with unique ids, filtering out the id at position i is exactly removing position i |
| `Records.WithoutFound` | app.py:119-124 | with unique ids, filtering removes exactly the record the lookup found |
| `Records.WithoutKeeps` | app.py:124-125 | filtering keeps the hit-point invariant and id uniqueness |
| `Records.ReplaceKeepsIds` | app.py:71-86 | replacing a record by one with the same id keeps the set of ids, uniqueness, and where lookup finds that id |
| `Records.Clamp` | app.py:98 | `max(0, min(v, hi))` is v inside `[0, hi]`, hi above it, 0 below it, and 0 for a negative ceiling |
| `Server.Create` | app.py:36-63 | a non-blank name with a positive integer maxHP is created (201), and nothing else is; a blank name gives 400 "Character name is required"; otherwise a refused maxHP gives "Max HP must be a valid number"; a missing or non-positive maxHP gives "Max HP must be greater than 0"; each refusal leaves the list unchanged; success appends one full-health record with the stripped name and the fresh id, and keeps the invariant and unique ids |
| `Server.CreateThenFind` | app.py:53-60 | a created record is the one a later lookup by its id finds, at the end of the list |
| `Server.Rename` | app.py:75-79 | a missing or blank name is ignored; otherwise the stripped name replaces the old one; HP untouched |
| `Server.Resize` | app.py:81-91 | a maxHP that is missing, refused or not positive is ignored; otherwise it becomes the maximum, current HP is lowered to it if above, and the invariant holds afterwards |
| `Server.SetHP` | app.py:93-100 | a given currentHP becomes the clamp of the value into `[0, maxHP]`, so the result is valid whenever maxHP is positive |
| `Server.Adjust` | app.py:102-110 | a given hpDelta moves current HP by the delta and clamps it into `[0, maxHP]`; the result is valid whenever maxHP is positive |
| `Server.Apply` | app.py:75-110 | the four fields applied in order keep the id and the invariant; a blank name and a non-positive maxHP keep their old values; the new maximum is settled first, then currentHP is clamped into it, then hpDelta is added to that and clamped again |
| `Server.Update` | app.py:65-113 | 404 exactly when no record has the id, with the list unchanged; otherwise only the first match is replaced by the changed record, with the same id; the invariant, unique ids and the set of ids are kept |
| `Server.UpdateSetIdempotent` | app.py:93-100 | sending the same currentHP twice gives the same reply and list as sending it once |
| `Server.UpdateDeltaRoundTrip` | app.py:102-110 | adjusting by d and then by -d restores the list when the first step crossed neither bound |
| `Server.UpdateEmptyBody` | app.py:75-112 | a body with no usable field (missing or blank name, no positive maxHP, no numeric currentHP or hpDelta) leaves the list unchanged |
| `Server.Delete` | app.py:115-127 | 404 exactly when no record has the id, with the list unchanged; otherwise the list is the filter of that id, so every other record stays once and in order, and with unique ids exactly the found position is removed; the invariant and unique ids are kept |
| `Server.DeleteTwice` | app.py:118-122 | a second delete of the same id answers 404 and changes nothing |
| `Client.Load` | static/js/app.js:21-31 | a fetched list replaces the cache wholesale; a failed fetch alerts and changes nothing |
| `Client.Select` | static/js/app.js:186-189 | the card becomes unselected exactly when it was the selected one, and selected otherwise |
| `Client.SelectTwice` | static/js/app.js:187 | two clicks on one card restore the selection exactly when nothing or that card was selected |
| `Client.Patch` | static/js/app.js:84-88 | only the first record with the id is replaced; length and all other positions are kept; no match is a no-op |
| `Client.Discard` | static/js/app.js:174-177 | every record of the id is removed and the rest keep their order; the selection is cleared exactly when it was that id |
| `Client.Absorb` | static/js/app.js:60-61 | a failed answer changes nothing; a created record is appended, a returned PUT record is patched in by id, and a successful delete is exactly `Discard` of the id |
| `Client.Send` | static/js/app.js:71-92 | the request is sent; an alert is raised exactly when the answer failed, and then the state is unchanged |
| `Client.AddCharacter` | static/js/app.js:34-68 | nothing is sent exactly when the name is empty or maxHP is NaN, zero or negative, and then the list is unchanged; otherwise POST {name, maxHP}; on success the record is appended; on failure the server's non-empty error text or "Failed to create character" is shown |
| `Client.ModifyHP` | static/js/app.js:71-93 | PUT {hpDelta} is always sent; a failure alerts and changes nothing; a returned record is patched in by id |
| `Client.AddHP` | static/js/app.js:96-109 | a request is sent exactly for a positive amount, and then the outcome is that of `ModifyHP` with +amount (patch, or alert on failure); otherwise nothing changes, with an alert when the field exists |
| `Client.SubtractHP` | static/js/app.js:112-125 | a request is sent exactly for a positive amount, and then the outcome is that of `ModifyHP` with -amount (patch, or alert on failure); otherwise nothing changes, with an alert when the field exists |
| `Client.SetCustomHP` | static/js/app.js:128-159 | PUT {currentHP} is sent, unclamped, exactly when the input is a number and the character is in the cache; a non-number is dropped silently |
| `Client.EditCharacter` | static/js/app.js:192-229 | a request is sent exactly when the character is cached, the name is neither cancelled nor blank, and maxHP is a positive integer; the name is sent trimmed; only a bad maxHP after a good name alerts |
| `Client.DeleteCharacter` | static/js/app.js:162-183 | DELETE is sent exactly when confirmed; a success discards the id and its selection; a failure alerts and changes nothing |
| `Display.Percentage` | static/js/app.js:233 | the percentage is finite exactly for a non-zero maximum, and then percentage times maxHP is 100 times currentHP |
| `Display.ExceedsExact` | static/js/app.js:233-235 | for a positive maximum, "percentage above k" is the integer test `100 * cur > k * max` |
| `Display.HpBarClass` | static/js/app.js:232-237 | with a positive maximum: healthy iff `2*cur > max`, wounded iff `2*cur <= max < 4*cur`, critical iff `4*cur <= max`; with a zero maximum only positive HP is healthy |
| `Display.HpBarClassMonotone` | static/js/app.js:232-237 | more hit points never give a worse tier |
| `Display.BarWidth` | static/js/app.js:269 | the width is finite and in `[0, 100]` except NaN for 0/0; inside the invariant it equals the percentage; above the maximum it is 100, below zero 0 |
| `Coherence.CacheCoherent` | static/js/app.js:83-88 | for every request the browser can send, absorbing the server's answer into a cache equal to the store gives exactly the store the server saves |
| `Coherence.CacheStaysValid` | app.py:98-108 | a cache of a valid store stays valid after any request |
| `Coherence.CreateRefusalShown` | static/js/app.js:55-58 | a create the server refuses shows the server's own message and changes nothing |
| `Coherence.SpacesOnlyNameReachesServer` | static/js/app.js:41 | every non-empty name made only of space, with a positive maxHP, passes the browser's check and is sent, and the server refuses it with "Character name is required" |
| `Coherence.Serve` | app.py:36-127 | each browser request goes to its route: a POST is created or refused, a PUT updated or 404, a DELETE deleted or 404; a refusal leaves the list unchanged, and every route keeps the invariant and, for a fresh id, unique ids |
| `Coherence.AnswerOf` | app.py:43-73 | the browser sees a failure exactly for a 400 or 404; a 400 carries the server's `error` text and a 200/201 the returned record |
| `Coherence.DeltaButtonsMoveHP` | static/js/app.js:96-125 | for a cached valid record and a positive amount, the server updates it, the `+` request never lowers its HP and the `-` request never raises it |
| `Coherence.EditReachesServer` | static/js/app.js:196-214 | every edit the browser sends is answered 200 with the record's maximum set to the entered value; its name becomes the Python-stripped form of the sent name unless that strips to nothing |
| `Coherence.NelNameIgnoredByServer` | app.py:76-79 | an edit to the name U+0085 passes the browser's trim check and is sent, yet the server keeps the old name |
| `Coherence.AriaScenario` | app.py:102-108 | creating "Aria" with 30 HP and applying -12 leaves 18/30, which is drawn healthy |

Notes on the model:

- Toggling one card twice does not always restore the selection. If another
  card was selected, the first click selects this card and the second
  clears it. `Client.SelectTwice` states the exact condition in both directions.
- The server's `uuid4()` id is a parameter. Instead of a precondition that
  it is fresh, freshness is the hypothesis under which `Server.Create`
  promises unique ids. Every other promise holds for any id.
- At exactly 25% the bar is critical, because the code tests
  `percentage > 25` for wounded; `Display.HpBarClass` proves critical iff
  `4*cur <= max`.
- The browser trims names with JavaScript's space set and the server with
  Python's. They differ on U+0085 and U+001C-U+001F (Python strips them,
  JavaScript does not) and on U+FEFF (the reverse). An edited name made only
  of such characters is sent and then ignored by the server, which answers
  200 with the old name (`Coherence.NelNameIgnoredByServer`).
- Lookup and removal are modelled as the source writes them. Lookup takes
  the first match; removal drops every match. They agree with the unique-id
  reading whenever ids are unique, which the lemmas make explicit.

## Left out

- JSON file loading and saving, Flask routing, CORS and the `index` page:
  these are I/O. Each route takes the loaded list and returns the list to save.
- `uuid4()` id generation: replaced by a caller-supplied id.
- String-to-number parsing: Python's `int()` (including its truncation of
  floats and acceptance of booleans) and JavaScript's `parseInt`. Parsed
  values arrive as `Field` on the server and `Option<int>` in the browser.
- JavaScript numbers are doubles. Integers beyond 2^53 and the rounding of
  `currentHP / maxHP * 100` are not modelled; percentages are exact reals.
- A body whose `name` is not a string makes `.strip()` raise (a 500). A
  request without a JSON body also fails. Neither is modelled.
- All `fetch` calls, `alert`/`prompt`/`confirm` dialogs, `console.error`,
  form reset and clearing of input fields: these are browser I/O. Server
  answers, dialog replies and the presence of the amount field are inputs;
  the alert text is an output.
- DOM rendering, the template strings, `escapeHtml`, the empty-list
  placeholder and the rounded percentage text. Only the colour tier and the
  bar width are modelled.
- Concurrent requests whose answers arrive out of order: handlers run one
  at a time here, so the stale-overwrite race is not represented.
- When `fetch` itself throws or an error body is not JSON, the create alert
  shows the runtime's own error text. The model covers only an answer whose
  `error` field is present or absent.
- A success answer without a record to a POST or PUT never comes from this
  server. `Client.Absorb` treats it as changing nothing, where the browser
  would store whatever the body parsed to.

=== FILE: client.dfy ===
/**
 * The browser's state store and command handlers (`static/js/app.js`). The
 * module-level `characters` list and `selectedCharacterId` become an explicit
 * `State`; every handler is a function from the state and the user's input to
 * the request it sends (if any), the alert it raises (if any) and the state
 * after the server's answer, which is passed in as a parameter.
 */
module Client {
  import opened Wrappers
  import opened Records
  import Text

  datatype State = State(characters: seq<Character>, selected: Option<Id>)

  /**
   * The mutating requests the browser issues, with the JSON body each
   * carries. The initial GET of the list is not a `Request`: `Load` takes
   * its outcome as input.
   */
  datatype Request =
    | Post(name: string, maxHP: int)            // POST {name, maxHP}
    | PutDelta(id: Id, delta: int)              // PUT {hpDelta}
    | PutHP(id: Id, value: int)                 // PUT {currentHP}
    | PutEdit(id: Id, name: string, maxHP: int) // PUT {name, maxHP}
    | Remove(id: Id)                            // DELETE

  /**
   * The server's answer as the browser reads it: a non-success status (with
   * the body's `error` field, if any), a returned record, or a success whose
   * record the handler does not read.
   */
  datatype Answer = Failed(error: Option<string>) | Returned(record: Character) | Done

  /** One handler run: the mutating request it sent, what it alerted, and the state afterwards. */
  datatype Step = Step(sent: Option<Request>, alert: Option<string>, state: State)

  const LoadFailed := "Failed to load characters. Please refresh the page."
  const InvalidCreate := "Please enter a valid name and maximum HP greater than 0."
  const CreateFallback := "Failed to create character"
  const NotPositive := "Please enter a positive number."
  const ModifyFailed := "Failed to modify hitpoints. Please try again."
  const SetFailed := "Failed to set hitpoints. Please try again."
  const InvalidMaxHP := "Maximum HP must be a number greater than 0."
  const EditFailed := "Failed to edit character. Please try again."
  const DeleteFailed := "Failed to delete character. Please try again."

  /** Initial load: the fetched list replaces the local one wholesale; a failure only alerts. */
  function Load(st: State, fetched: Option<seq<Character>>): (r: Step)
    ensures r.sent.None?
    ensures fetched.Some? ==> r.state == st.(characters := fetched.value) && r.alert.None?
    ensures fetched.None? ==> r.state == st && r.alert == Some(LoadFailed)
  {
    match fetched
    case Some(list) => Step(None, None, st.(characters := list))
    case None => Step(None, Some(LoadFailed), st)
  }

  /** Clicking a card: deselects it if it was selected, selects it otherwise. */
  function Select(st: State, id: Id): (r: State)
    ensures r.characters == st.characters
    ensures r.selected.None? <==> st.selected == Some(id)
    ensures r.selected.Some? ==> r.selected.value == id
  {
    st.(selected := if st.selected == Some(id) then None else Some(id))
  }

  /**
   * Clicking the same card twice restores the previous selection exactly
   * when nothing, or that very card, was selected before; if another card
   * was selected, the two clicks leave nothing selected.
   */
  lemma SelectTwice(st: State, id: Id)
    ensures Select(Select(st, id), id) == st <==> st.selected.None? || st.selected == Some(id)
    ensures Select(Select(st, id), id).selected.None? <==> st.selected != Some(id)
  {
  }

  /**
   * `characters[findIndex(id)] = record`: only the first record with this id
   * is replaced; nothing happens if there is none.
   */
  function Patch(s: seq<Character>, id: Id, record: Character): (r: seq<Character>)
    ensures |r| == |s|
    ensures !HasId(s, id) ==> r == s
    ensures HasId(s, id) ==>
              var i := FindIndex(s, id).value;
              && r[i] == record
              && forall j :: 0 <= j < |s| && j != i ==> r[j] == s[j]
  {
    match FindIndex(s, id)
    case None => s
    case Some(i) => s[i := record]
  }

  /**
   * After a delete: every record with this id goes, and so does its
   * selection. The survivors keep their order (`Records.WithoutAppend`).
   */
  function Discard(st: State, id: Id): (r: State)
    ensures r.characters == Without(st.characters, id)
    ensures forall c :: c in r.characters <==> c in st.characters && c.id != id
    ensures !HasId(r.characters, id)
    ensures UniqueIds(st.characters) && HasId(st.characters, id) ==>
              var i := FindIndex(st.characters, id).value;
              r.characters == st.characters[..i] + st.characters[i + 1..]
    ensures r.selected.None? <==> st.selected.None? || st.selected == Some(id)
    ensures st.selected != Some(id) ==> r.selected == st.selected
  {
    WithoutFound(st.characters, id);
    State(Without(st.characters, id), if st.selected == Some(id) then None else st.selected)
  }

  /**
   * How the local list absorbs the server's answer to a request: nothing on
   * failure; otherwise the created record is appended, an updated record
   * patched in by id, a deleted id discarded. A success without a record
   * (which this server never sends to a POST or PUT) changes nothing.
   */
  function Absorb(st: State, req: Request, answer: Answer): (r: State)
    ensures answer.Failed? ==> r == st
    ensures !req.Remove? ==> r.selected == st.selected
    ensures req.Post? && answer.Returned? ==> r.characters == st.characters + [answer.record]
    ensures !req.Post? && !req.Remove? ==> |r.characters| == |st.characters|
    ensures (req.PutDelta? || req.PutHP? || req.PutEdit?) && answer.Returned? ==>
              r.characters == Patch(st.characters, req.id, answer.record)
    ensures req.Remove? && !answer.Failed? ==> r == Discard(st, req.id) && !HasId(r.characters, req.id)
  {
    if answer.Failed? then st
    else
      match req
      case Post(_, _) =>
        if answer.Returned? then st.(characters := st.characters + [answer.record]) else st
      case PutDelta(id, _) =>
        if answer.Returned? then st.(characters := Patch(st.characters, id, answer.record)) else st
      case PutHP(id, _) =>
        if answer.Returned? then st.(characters := Patch(st.characters, id, answer.record)) else st
      case PutEdit(id, _, _) =>
        if answer.Returned? then st.(characters := Patch(st.characters, id, answer.record)) else st
      case Remove(id) => Discard(st, id)
  }

  /** Sends `req`, then absorbs the answer or raises `failure` (the failure text for this handler). */
  function Send(st: State, req: Request, answer: Answer, failure: string): (r: Step)
    ensures r.sent == Some(req)
    ensures r.alert.Some? <==> answer.Failed?
    ensures r.alert == (if answer.Failed? then Some(failure) else None)
    ensures r.state == Absorb(st, req, answer)
    ensures answer.Failed? ==> r.state == st
  {
    Step(Some(req), if answer.Failed? then Some(failure) else None, Absorb(st, req, answer))
  }

  /**
   * Submitting the create form. `maxHP` is `parseInt` of the field (None for
   * NaN). The name is only checked for emptiness, not trimmed. A rejection
   * shows the server's `error` text when it sent a non-empty one.
   */
  function AddCharacter(st: State, name: string, maxHP: Option<int>, answer: Answer): (r: Step)
    ensures r.sent.None? <==> name == [] || maxHP.None? || maxHP.value <= 0
    ensures r.sent.None? ==> r.state == st && r.alert == Some(InvalidCreate)
    ensures r.sent.Some? ==> r.sent.value == Post(name, maxHP.value)
    ensures r.sent.Some? && answer.Failed? ==>
              && r.state == st
              && r.alert == Some(if answer.error.Some? && answer.error.value != [] then answer.error.value
                                 else CreateFallback)
    ensures r.sent.Some? && answer.Returned? ==>
              && r.state.characters == st.characters + [answer.record]
              && r.state.selected == st.selected
              && r.alert.None?
  {
    if name == [] || maxHP.None? || maxHP.value <= 0 then Step(None, Some(InvalidCreate), st)
    else
      var message := if answer.Failed? && answer.error.Some? && answer.error.value != [] then answer.error.value
                     else CreateFallback;
      Send(st, Post(name, maxHP.value), answer, message)
  }

  /** `modifyHP`: send the delta and patch in the returned record. */
  function ModifyHP(st: State, id: Id, delta: int, answer: Answer): (r: Step)
    ensures r.sent == Some(PutDelta(id, delta))
    ensures answer.Failed? ==> r.state == st && r.alert == Some(ModifyFailed)
    ensures answer.Returned? ==> r.state.characters == Patch(st.characters, id, answer.record)
    ensures r.state.selected == st.selected
    ensures r.alert == (if answer.Failed? then Some(ModifyFailed) else None)
  {
    Send(st, PutDelta(id, delta), answer, ModifyFailed)
  }

  /**
   * The amount field under a selected card, as read by `addHP`/`subtractHP`:
   * None when the field is not on the page, otherwise `parseInt` of its text.
   */
  type AmountField = Option<Option<int>>

  predicate PositiveAmount(field: AmountField) {
    field.Some? && field.value.Some? && field.value.value > 0
  }

  /** The `+` button: a positive amount is sent as `+value`; anything else sends nothing. */
  function AddHP(st: State, id: Id, field: AmountField, answer: Answer): (r: Step)
    ensures r.sent.Some? <==> PositiveAmount(field)
    ensures r.sent.Some? ==> r.sent.value == PutDelta(id, field.value.value)
    ensures PositiveAmount(field) ==> r == ModifyHP(st, id, field.value.value, answer)
    ensures r.sent.None? ==> r.state == st
    ensures r.sent.None? ==> (r.alert == Some(NotPositive) <==> field.Some?)
  {
    if field.None? then Step(None, None, st)
    else if !PositiveAmount(field) then Step(None, Some(NotPositive), st)
    else ModifyHP(st, id, field.value.value, answer)
  }

  /** The `-` button: a positive amount is sent as `-value`; anything else sends nothing. */
  function SubtractHP(st: State, id: Id, field: AmountField, answer: Answer): (r: Step)
    ensures r.sent.Some? <==> PositiveAmount(field)
    ensures r.sent.Some? ==> r.sent.value == PutDelta(id, -field.value.value) && r.sent.value.delta < 0
    ensures PositiveAmount(field) ==> r == ModifyHP(st, id, -field.value.value, answer)
    ensures r.sent.None? ==> r.state == st
    ensures r.sent.None? ==> (r.alert == Some(NotPositive) <==> field.Some?)
  {
    if field.None? then Step(None, None, st)
    else if !PositiveAmount(field) then Step(None, Some(NotPositive), st)
    else ModifyHP(st, id, -field.value.value, answer)
  }

  /**
   * Enter in the exact-HP field: any integer is sent unclamped, but only for
   * a character the local list holds. A non-number is dropped without alert.
   */
  function SetCustomHP(st: State, id: Id, value: Option<int>, answer: Answer): (r: Step)
    ensures r.sent.Some? <==> value.Some? && HasId(st.characters, id)
    ensures r.sent.Some? ==> r.sent.value == PutHP(id, value.value)
    ensures r.sent.None? ==> r.state == st && r.alert.None?
    ensures r.sent.Some? && answer.Failed? ==> r.state == st && r.alert == Some(SetFailed)
    ensures r.sent.Some? && answer.Returned? ==> r.state.characters == Patch(st.characters, id, answer.record)
    ensures r.state.selected == st.selected
    ensures r.sent.Some? ==> r.alert == (if answer.Failed? then Some(SetFailed) else None)
  {
    if value.None? || FindIndex(st.characters, id).None? then Step(None, None, st)
    else Send(st, PutHP(id, value.value), answer, SetFailed)
  }

  /**
   * The Edit button: two prompts, name then max HP (None when cancelled;
   * max HP is `parseInt` of the reply). A cancelled or blank name or a
   * cancelled max HP aborts silently; a max HP that is not a positive integer
   * aborts with an alert. The name is sent trimmed.
   */
  function EditCharacter(st: State, id: Id, newName: Option<string>, newMaxHP: Option<Option<int>>,
                         answer: Answer): (r: Step)
    ensures r.sent.Some? <==>
              && HasId(st.characters, id)
              && newName.Some? && !Text.Blank(newName.value, Text.JsSpace)
              && newMaxHP.Some? && newMaxHP.value.Some? && newMaxHP.value.value > 0
    ensures r.sent.Some? ==>
              && r.sent.value == PutEdit(id, Text.Trim(newName.value, Text.JsSpace), newMaxHP.value.value)
              && r.sent.value.name != []
    ensures r.sent.None? ==> r.state == st
    ensures r.sent.None? ==>
              (r.alert == Some(InvalidMaxHP) <==>
                 HasId(st.characters, id) && newName.Some? && !Text.Blank(newName.value, Text.JsSpace)
                 && newMaxHP.Some?)
    ensures r.sent.Some? && answer.Returned? ==> r.state.characters == Patch(st.characters, id, answer.record)
    ensures r.sent.Some? && answer.Failed? ==> r.state == st && r.alert == Some(EditFailed)
    ensures r.state.selected == st.selected
    ensures r.sent.None? ==> r.alert.None? || r.alert == Some(InvalidMaxHP)
    ensures r.sent.Some? ==> r.alert == (if answer.Failed? then Some(EditFailed) else None)
  {
    if FindIndex(st.characters, id).None? then Step(None, None, st)
    else if newName.None? || Text.Trim(newName.value, Text.JsSpace) == [] then Step(None, None, st)
    else if newMaxHP.None? then Step(None, None, st)
    else if newMaxHP.value.None? || newMaxHP.value.value <= 0 then Step(None, Some(InvalidMaxHP), st)
    else Send(st, PutEdit(id, Text.Trim(newName.value, Text.JsSpace), newMaxHP.value.value), answer, EditFailed)
  }

  /** The Delete button: nothing without confirmation; after a successful delete, `Discard`. */
  function DeleteCharacter(st: State, id: Id, confirmed: bool, answer: Answer): (r: Step)
    ensures r.sent.Some? <==> confirmed
    ensures r.sent.Some? ==> r.sent.value == Remove(id)
    ensures !confirmed || answer.Failed? ==> r.state == st
    ensures confirmed && answer.Failed? ==> r.alert == Some(DeleteFailed)
    ensures confirmed && !answer.Failed? ==> r.state == Discard(st, id) && r.alert.None?
    ensures !confirmed ==> r == Step(None, None, st)
  {
    if !confirmed then Step(None, None, st)
    else Send(st, Remove(id), answer, DeleteFailed)
  }
}

=== FILE: coherence.dfy ===
/**
 * The browser's list is a cache of the server's store, patched only after a
 * successful answer. This module pairs each request the browser sends with
 * the server operation that handles it and proves that the cache stays equal
 * to the store the server saves.
 */
module Coherence {
  import opened Wrappers
  import opened Records
  import Server
  import Client
  import Text
  import Display

  const NotFoundMessage := "Character not found"

  /** The server route that handles each request, given the id `uuid4()` would mint. */
  function Serve(store: seq<Character>, req: Client.Request, freshId: Id): (r: Server.Reply)
    ensures req.Post? ==> r.status.Created? || r.status.BadRequest?
    ensures req.PutDelta? || req.PutHP? || req.PutEdit? ==> r.status.Updated? || r.status.NotFound?
    ensures req.Remove? ==> r.status.Deleted? || r.status.NotFound?
    ensures r.status.BadRequest? || r.status.NotFound? ==> r.store == store
    ensures AllValid(store) ==> AllValid(r.store)
    ensures UniqueIds(store) && !HasId(store, freshId) ==> UniqueIds(r.store)
  {
    match req
    case Post(name, m) => Server.Create(store, Some(name), Server.Value(m), freshId)
    case PutDelta(id, d) => Server.Update(store, id, Server.DeltaBody(d))
    case PutHP(id, v) => Server.Update(store, id, Server.SetBody(v))
    case PutEdit(id, name, m) =>
      Server.Update(store, id, Server.Changes(Some(name), Server.Value(m), Server.Absent, Server.Absent))
    case Remove(id) => Server.Delete(store, id)
  }

  /** What the browser reads from a status: the record for 200/201, the error text otherwise. */
  function AnswerOf(status: Server.Status): (a: Client.Answer)
    ensures a.Failed? <==> status.BadRequest? || status.NotFound?
    ensures status.BadRequest? ==> a == Client.Failed(Some(status.message))
    ensures status.Created? || status.Updated? ==> a == Client.Returned(status.record)
  {
    match status
    case Created(c) => Client.Returned(c)
    case Updated(c) => Client.Returned(c)
    case Deleted => Client.Done
    case BadRequest(m) => Client.Failed(Some(m))
    case NotFound => Client.Failed(Some(NotFoundMessage))
  }

  /**
   * Whatever the browser sends, absorbing the server's answer into a list
   * equal to the server's store yields exactly the store the server saves.
   */
  lemma CacheCoherent(st: Client.State, store: seq<Character>, req: Client.Request, freshId: Id)
    requires st.characters == store
    ensures var reply := Serve(store, req, freshId);
            Client.Absorb(st, req, AnswerOf(reply.status)).characters == reply.store
  {
  }

  /** Since the cache follows the store, it keeps the store's hit-point invariant. */
  lemma CacheStaysValid(st: Client.State, req: Client.Request, freshId: Id)
    requires AllValid(st.characters)
    ensures AllValid(Client.Absorb(st, req, AnswerOf(Serve(st.characters, req, freshId).status)).characters)
  {
  }

  /** When the server refuses a create, the form's alert shows the server's own message. */
  lemma CreateRefusalShown(st: Client.State, name: string, maxHP: int, freshId: Id)
    requires name != [] && maxHP > 0
    ensures var reply := Server.Create(st.characters, Some(name), Server.Value(maxHP), freshId);
            var r := Client.AddCharacter(st, name, Some(maxHP), AnswerOf(reply.status));
            reply.status.BadRequest? ==> r.alert == Some(reply.status.message) && r.state == st
  {
  }

  /**
   * The browser checks the name for emptiness only, so a name of spaces is
   * sent, and the server, which strips it, refuses it.
   */
  lemma SpacesOnlyNameReachesServer(st: Client.State, name: string, m: int, answer: Client.Answer, freshId: Id)
    requires name != [] && Server.IsBlank(name) && m > 0
    ensures Client.AddCharacter(st, name, Some(m), answer).sent == Some(Client.Post(name, m))
    ensures Serve(st.characters, Client.Post(name, m), freshId).status == Server.BadRequest(Server.NameRequired)
  {
  }

  /**
   * Create "Aria" with 30 HP, take 12 damage: the record holds 18 of 30,
   * which at 60% is drawn as healthy.
   */
  lemma AriaScenario(freshId: Id)
    ensures var created := Serve([], Client.Post("Aria", 30), freshId);
            && created.status == Server.Created(Character(freshId, "Aria", 30, 30))
            && var hit := Serve(created.store, Client.PutDelta(freshId, -12), freshId);
               && hit.status == Server.Updated(Character(freshId, "Aria", 30, 18))
               && hit.store == [Character(freshId, "Aria", 30, 18)]
               && Display.HpBarClass(18, 30) == Display.Healthy
  {
    assert !Text.Blank("Aria", Text.PySpace) by { assert !Text.PySpace("Aria"[0]); }
    assert Server.Strip("Aria") == "Aria" by {
      assert Text.Lead("Aria", Text.PySpace) == 0;
    }
  }

  /**
   * What the `+` and `-` buttons send, once served: with a valid record, a
   * heal never lowers its HP and a hit never raises it.
   */
  lemma DeltaButtonsMoveHP(st: Client.State, id: Id, field: Client.AmountField, answer: Client.Answer, i: nat)
    requires FindIndex(st.characters, id) == Some(i) && Valid(st.characters[i])
    requires Client.PositiveAmount(field)
    ensures var heal := Serve(st.characters, Client.AddHP(st, id, field, answer).sent.value, id);
            heal.status.Updated? && heal.status.record.currentHP >= st.characters[i].currentHP
    ensures var hit := Serve(st.characters, Client.SubtractHP(st, id, field, answer).sent.value, id);
            hit.status.Updated? && hit.status.record.currentHP <= st.characters[i].currentHP
  {
  }

  /**
   * An edit the browser lets through always carries a name the browser
   * considers non-blank and a positive maximum, so the server applies that
   * maximum to the record.
   */
  lemma EditReachesServer(st: Client.State, id: Id, newName: Option<string>, newMaxHP: Option<Option<int>>,
                          answer: Client.Answer)
    requires Client.EditCharacter(st, id, newName, newMaxHP, answer).sent.Some?
    ensures var reply := Serve(st.characters, Client.EditCharacter(st, id, newName, newMaxHP, answer).sent.value, id);
            && reply.status.Updated?
            && reply.status.record.maxHP == newMaxHP.value.value
            && (!Server.IsBlank(Text.Trim(newName.value, Text.JsSpace)) ==>
                  reply.status.record.name == Server.Strip(Text.Trim(newName.value, Text.JsSpace)))
  {
  }

  /**
   * The two trims disagree on U+0085 (NEL): JavaScript keeps it, Python
   * strips it. An edit to the name "\u0085" therefore passes the browser's
   * check and is sent, and the server keeps the old name while answering 200.
   */
  lemma NelNameIgnoredByServer(st: Client.State, id: Id, m: int, answer: Client.Answer)
    requires HasId(st.characters, id) && m > 0
    ensures var r := Client.EditCharacter(st, id, Some("\U{85}"), Some(Some(m)), answer);
            && r.sent == Some(Client.PutEdit(id, "\U{85}", m))
            && var reply := Serve(st.characters, r.sent.value, id);
               && reply.status.Updated?
               && reply.status.record.name == st.characters[FindIndex(st.characters, id).value].name
  {
    assert !Text.JsSpace("\U{85}"[0]);
    assert Text.Trim("\U{85}", Text.JsSpace) == "\U{85}" by {
      assert Text.Lead("\U{85}", Text.JsSpace) == 0;
    }
    assert Server.IsBlank("\U{85}") by {
      assert Text.PySpace("\U{85}"[0]);
    }
  }
}

=== FILE: display.dfy ===
/**
 * The two numeric decisions the card renderer makes (`static/js/app.js`):
 * the colour tier of the HP bar and the bar's width. Percentages are exact
 * reals; JavaScript's division by a zero maximum (an infinity or NaN) is
 * modelled because the renderer does not guard against it.
 */
module Display {

  /** An IEEE division result: finite, plus or minus infinity, or NaN. */
  datatype Percent = Finite(value: real) | PosInfinity | NegInfinity | NaN

  /** `(currentHP / maxHP) * 100`, computed exactly. */
  function Percentage(cur: int, max: int): (p: Percent)
    ensures max != 0 <==> p.Finite?
    ensures max != 0 ==> p.value * (max as real) == 100.0 * (cur as real)
  {
    if max != 0 then Finite((cur as real / max as real) * 100.0)
    else if cur > 0 then PosInfinity
    else if cur < 0 then NegInfinity
    else NaN
  }

  /** JavaScript's `p > k` for a finite `k`: false for NaN and minus infinity. */
  predicate Exceeds(p: Percent, k: real) {
    (p.Finite? && p.value > k) || p.PosInfinity?
  }

  datatype Severity = Healthy | Wounded | Critical

  /** For a positive maximum, `100 * cur / max > k` is an integer comparison. */
  lemma ExceedsExact(cur: int, max: int, k: int)
    ensures max > 0 ==> (Exceeds(Percentage(cur, max), k as real) <==> 100 * cur > k * max)
  {
  }

  /**
   * `getHPBarClass`: above 50% healthy, above 25% wounded, otherwise
   * critical. With a positive maximum the tiers are the integer tests
   * `2 * cur > max` and `4 * cur > max`, so exactly one half is wounded and
   * exactly one quarter is critical.
   */
  function HpBarClass(cur: int, max: int): (r: Severity)
    ensures max > 0 ==> (r == Healthy <==> 2 * cur > max)
    ensures max > 0 ==> (r == Wounded <==> 2 * cur <= max < 4 * cur)
    ensures max > 0 ==> (r == Critical <==> 4 * cur <= max)
    ensures max == 0 ==> (r == Healthy <==> cur > 0) && r != Wounded
  {
    ExceedsExact(cur, max, 50);
    ExceedsExact(cur, max, 25);
    var p := Percentage(cur, max);
    if Exceeds(p, 50.0) then Healthy
    else if Exceeds(p, 25.0) then Wounded
    else Critical
  }

  function Rank(s: Severity): nat {
    match s
    case Critical => 0
    case Wounded => 1
    case Healthy => 2
  }

  /** More hit points never give a worse tier. */
  lemma HpBarClassMonotone(cur1: int, cur2: int, max: int)
    requires max > 0 && cur1 <= cur2
    ensures Rank(HpBarClass(cur1, max)) <= Rank(HpBarClass(cur2, max))
  {
  }

  /**
   * The bar's CSS width, `Math.max(0, Math.min(100, percentage))`. It is
   * always inside `[0, 100]`, except NaN for `0 / 0`; inside the invariant
   * it is the percentage itself.
   */
  function BarWidth(cur: int, max: int): (w: Percent)
    ensures w.Finite? || w.NaN?
    ensures w.NaN? <==> cur == 0 && max == 0
    ensures w.Finite? ==> 0.0 <= w.value <= 100.0
    ensures max > 0 && 0 <= cur <= max ==> w == Percentage(cur, max)
    ensures max > 0 && cur > max ==> w == Finite(100.0)
    ensures max > 0 && cur < 0 ==> w == Finite(0.0)
  {
    ExceedsExact(cur, max, 100);
    ExceedsExact(cur, max, 0);
    match Percentage(cur, max)
    case Finite(p) => Finite(if p > 100.0 then 100.0 else if p < 0.0 then 0.0 else p)
    case PosInfinity => Finite(100.0)
    case NegInfinity => Finite(0.0)
    case NaN => NaN
  }
}

=== FILE: records.dfy ===
/**
 * The character record both halves of the tracker keep, the invariant the
 * server maintains for it, and the id-based lookups and removals that the
 * server (`app.py`) and the browser (`static/js/app.js`) both perform on an
 * ordered list of records.
 */
module Records {
  import opened Wrappers

  /** Opaque identifier; the server mints it (a uuid4 string) and never changes it. */
  type Id = string

  datatype Character = Character(id: Id, name: string, maxHP: int, currentHP: int)

  /** The hit-point invariant: a positive maximum and current HP inside `[0, maxHP]`. */
  predicate Valid(c: Character) {
    c.maxHP > 0 && 0 <= c.currentHP <= c.maxHP
  }

  predicate AllValid(s: seq<Character>) {
    forall i :: 0 <= i < |s| ==> Valid(s[i])
  }

  /** No two records share an id. */
  predicate UniqueIds(s: seq<Character>) {
    forall i, j :: 0 <= i < j < |s| ==> s[i].id != s[j].id
  }

  predicate HasId(s: seq<Character>, id: Id) {
    exists i :: 0 <= i < |s| && s[i].id == id
  }

  /**
   * Position of the first record with this id, or None. This is both
   * Python's `next(c for c in characters if c['id'] == id)` and JavaScript's
   * `findIndex(c => c.id === id)`.
   */
  function FindIndex(s: seq<Character>, id: Id): (r: Option<nat>)
    ensures r.None? <==> !HasId(s, id)
    ensures r.Some? ==> r.value < |s| && s[r.value].id == id
    ensures r.Some? ==> forall j :: 0 <= j < r.value ==> s[j].id != id
  {
    if s == [] then None
    else if s[0].id == id then Some(0)
    else
      match FindIndex(s[1..], id)
      case None =>
        assert forall j :: 1 <= j < |s| ==> s[j] == s[1..][j - 1];
        None
      case Some(k) =>
        assert s[k + 1] == s[1..][k];
        Some(k + 1)
  }

  /**
   * The list with every record of this id filtered out, the rest in their
   * original order (`[c for c in characters if c['id'] != id]` on the server,
   * `characters.filter(c => c.id !== id)` in the browser).
   */
  function Without(s: seq<Character>, id: Id): (r: seq<Character>)
    ensures |r| <= |s|
    ensures forall c :: c in r <==> c in s && c.id != id
    ensures !HasId(r, id)
    ensures !HasId(s, id) ==> r == s
  {
    if s == [] then []
    else
      var rest := Without(s[1..], id);
      assert !HasId(s, id) ==> !HasId(s[1..], id) by {
        if HasId(s[1..], id) {
          var i :| 0 <= i < |s| - 1 && s[1..][i].id == id;
          assert s[i + 1].id == id;
        }
      }
      if s[0].id == id then rest else [s[0]] + rest
  }

  /** Filtering distributes over concatenation: it never reorders what it keeps. */
  lemma {:induction false} WithoutAppend(a: seq<Character>, b: seq<Character>, id: Id)
    ensures Without(a + b, id) == Without(a, id) + Without(b, id)
  {
    if a == [] {
      assert a + b == b;
    } else {
      assert (a + b)[1..] == a[1..] + b;
      WithoutAppend(a[1..], b, id);
    }
  }

  /**
   * With unique ids, filtering out the id found at index `i` is exactly
   * removing position `i`: one record fewer, all others in order.
   */
  lemma {:induction false} WithoutUnique(s: seq<Character>, i: nat)
    requires UniqueIds(s) && i < |s|
    ensures Without(s, s[i].id) == s[..i] + s[i + 1..]
  {
    var id := s[i].id;
    var p, q := s[..i], s[i + 1..];
    assert s == p + ([s[i]] + q);
    assert !HasId(p, id);
    assert !HasId(q, id);
    WithoutAppend(p, [s[i]] + q, id);
    WithoutAppend([s[i]], q, id);
    assert Without([s[i]], id) == [];
  }

  /** When ids are unique, filtering removes exactly the position `FindIndex` reports. */
  lemma WithoutFound(s: seq<Character>, id: Id)
    ensures UniqueIds(s) && HasId(s, id) ==>
              var i := FindIndex(s, id).value;
              Without(s, id) == s[..i] + s[i + 1..]
  {
    if UniqueIds(s) && HasId(s, id) {
      WithoutUnique(s, FindIndex(s, id).value);
    }
  }

  /** Filtering keeps the hit-point invariant and id uniqueness of what remains. */
  lemma {:induction false} WithoutKeeps(s: seq<Character>, id: Id)
    ensures AllValid(s) ==> AllValid(Without(s, id))
    ensures UniqueIds(s) ==> UniqueIds(Without(s, id))
  {
    if s != [] {
      WithoutKeeps(s[1..], id);
      var rest := Without(s[1..], id);
      if UniqueIds(s) {
        assert UniqueIds(s[1..]);
        assert s[0] !in rest;
        assert forall c :: c in rest ==> c.id != s[0].id;
      }
    }
  }

  /** Replacing one record by another with the same id keeps the id set and uniqueness. */
  lemma ReplaceKeepsIds(s: seq<Character>, i: nat, c: Character)
    requires i < |s| && c.id == s[i].id
    ensures forall id :: HasId(s[i := c], id) <==> HasId(s, id)
    ensures UniqueIds(s) ==> UniqueIds(s[i := c])
    ensures FindIndex(s[i := c], c.id) == FindIndex(s, c.id)
  {
    forall id
      ensures HasId(s[i := c], id) <==> HasId(s, id)
    {
      if HasId(s, id) {
        var j :| 0 <= j < |s| && s[j].id == id;
        assert s[i := c][j].id == id;
      }
      if HasId(s[i := c], id) {
        var j :| 0 <= j < |s| && s[i := c][j].id == id;
        assert s[j].id == id;
      }
    }
    FindIndexReplace(s, i, c);
  }

  lemma {:induction false} FindIndexReplace(s: seq<Character>, i: nat, c: Character)
    requires i < |s| && c.id == s[i].id
    ensures FindIndex(s[i := c], c.id) == FindIndex(s, c.id)
  {
    var r := FindIndex(s, c.id);
    var r' := FindIndex(s[i := c], c.id);
    assert s[i := c][i].id == c.id;
    assert s[i := c][r.value].id == c.id;
    assert s[r'.value].id == c.id;
  }

  /**
   * Python's `max(0, min(v, hi))`: `v` forced into `[0, hi]`, and 0 whenever
   * the ceiling itself is negative.
   */
  function Clamp(v: int, hi: int): (r: int)
    ensures r >= 0
    ensures hi >= 0 ==> r <= hi
    ensures 0 <= v <= hi ==> r == v
    ensures 0 <= hi < v ==> r == hi
    ensures v < 0 || hi < 0 ==> r == 0
  {
    var m := if v < hi then v else hi;
    if m > 0 then m else 0
  }
}

=== FILE: server.dfy ===
/**
 * The server's record store (`app.py`): create, update and delete on an
 * in-memory list of characters. Loading and saving the JSON file around each
 * request is left out; each operation takes the list as loaded and returns
 * the list it would save together with the HTTP status it answers with.
 */
module Server {
  import opened Wrappers
  import opened Records
  import Text

  /**
   * A numeric field of the JSON body after Python's `int()` coercion:
   * missing, refused by `int()` (ValueError/TypeError), or an integer.
   */
  datatype Field = Absent | Invalid | Value(n: int)

  /** The optional fields a PUT body may carry, applied in this order. */
  datatype Changes = Changes(name: Option<string>, maxHP: Field, currentHP: Field, hpDelta: Field)

  datatype Status =
    | Created(record: Character)   // 201 with the new record
    | Updated(record: Character)   // 200 with the updated record
    | Deleted                      // 200 with a confirmation message
    | BadRequest(message: string)  // 400 with an error message
    | NotFound                     // 404, "Character not found"

  /** What a request leaves behind: the list to be saved and the answer. */
  datatype Reply = Reply(store: seq<Character>, status: Status)

  const NameRequired := "Character name is required"
  const MaxHPNotPositive := "Max HP must be greater than 0"
  const MaxHPNotNumber := "Max HP must be a valid number"

  function Strip(s: string): string {
    Text.Trim(s, Text.PySpace)
  }

  predicate IsBlank(s: string) {
    Text.Blank(s, Text.PySpace)
  }

  /**
   * POST /api/characters. A missing name reads as the empty string and a
   * missing maxHP as 0. The name is checked first, then maxHP; on success a
   * record at full health is appended under the fresh id the caller supplies
   * in place of `uuid4()`.
   */
  function Create(store: seq<Character>, name: Option<string>, maxHP: Field, freshId: Id): (r: Reply)
    ensures r.status.Created? || r.status.BadRequest?
    ensures r.status.BadRequest? ==> r.store == store
    ensures r.status.Created? <==> !IsBlank(name.GetOr("")) && maxHP.Value? && maxHP.n > 0
    ensures r.status == BadRequest(NameRequired) <==> IsBlank(name.GetOr(""))
    ensures r.status == BadRequest(MaxHPNotNumber) <==> !IsBlank(name.GetOr("")) && maxHP.Invalid?
    ensures r.status == BadRequest(MaxHPNotPositive) <==>
              !IsBlank(name.GetOr("")) && (maxHP.Absent? || (maxHP.Value? && maxHP.n <= 0))
    ensures r.status.Created? ==>
              && maxHP.Value?
              && |r.store| == |store| + 1
              && r.store[..|store|] == store
              && r.store[|store|] == r.status.record
              && r.status.record.id == freshId
              && r.status.record.name == Strip(name.GetOr(""))
              && r.status.record.name != []
              && r.status.record.maxHP == maxHP.n
              && r.status.record.currentHP == r.status.record.maxHP
              && Valid(r.status.record)
    ensures AllValid(store) ==> AllValid(r.store)
    ensures UniqueIds(store) && !HasId(store, freshId) ==> UniqueIds(r.store)
  {
    var n := Strip(name.GetOr(""));
    if n == [] then Reply(store, BadRequest(NameRequired))
    else
      match maxHP
      case Invalid => Reply(store, BadRequest(MaxHPNotNumber))
      case Absent => Reply(store, BadRequest(MaxHPNotPositive))
      case Value(m) =>
        if m <= 0 then Reply(store, BadRequest(MaxHPNotPositive))
        else
          var c := Character(freshId, n, m, m);
          assert (store + [c])[..|store|] == store;
          Reply(store + [c], Created(c))
  }

  /** The `name` field: a blank name after stripping is ignored. */
  function Rename(c: Character, name: Option<string>): (r: Character)
    ensures r.id == c.id && r.maxHP == c.maxHP && r.currentHP == c.currentHP
    ensures name.None? || IsBlank(name.value) ==> r == c
    ensures name.Some? && !IsBlank(name.value) ==> r.name == Strip(name.value) && r.name != []
  {
    if name.Some? && Strip(name.value) != [] then c.(name := Strip(name.value)) else c
  }

  /**
   * The `maxHP` field: ignored unless a positive integer; a new maximum below
   * the current HP pulls the current HP down to it.
   */
  function Resize(c: Character, f: Field): (r: Character)
    ensures r.id == c.id && r.name == c.name
    ensures !(f.Value? && f.n > 0) ==> r == c
    ensures f.Value? && f.n > 0 ==>
              && r.maxHP == f.n
              && r.currentHP <= r.maxHP
              && (c.currentHP <= f.n ==> r.currentHP == c.currentHP)
              && (c.currentHP > f.n ==> r.currentHP == f.n)
    ensures Valid(c) ==> Valid(r)
  {
    if f.Value? && f.n > 0 then
      c.(maxHP := f.n, currentHP := if c.currentHP > f.n then f.n else c.currentHP)
    else c
  }

  /** The `currentHP` field: the requested value clamped into `[0, maxHP]`. */
  function SetHP(c: Character, f: Field): (r: Character)
    ensures r.id == c.id && r.name == c.name && r.maxHP == c.maxHP
    ensures !f.Value? ==> r == c
    ensures f.Value? && c.maxHP > 0 ==> Valid(r)
    ensures f.Value? && 0 <= f.n <= c.maxHP ==> r.currentHP == f.n
    ensures f.Value? && f.n < 0 ==> r.currentHP == 0
    ensures f.Value? && 0 <= c.maxHP < f.n ==> r.currentHP == c.maxHP
    ensures Valid(c) ==> Valid(r)
  {
    if f.Value? then c.(currentHP := Clamp(f.n, c.maxHP)) else c
  }

  /** The `hpDelta` field: the current HP moved by the delta, then clamped into `[0, maxHP]`. */
  function Adjust(c: Character, f: Field): (r: Character)
    ensures r.id == c.id && r.name == c.name && r.maxHP == c.maxHP
    ensures !f.Value? ==> r == c
    ensures f.Value? && c.maxHP > 0 ==> Valid(r)
    ensures f.Value? && 0 <= c.currentHP + f.n <= c.maxHP ==> r.currentHP == c.currentHP + f.n
    ensures f.Value? && c.currentHP + f.n < 0 ==> r.currentHP == 0
    ensures f.Value? && 0 <= c.maxHP < c.currentHP + f.n ==> r.currentHP == c.maxHP
    ensures Valid(c) ==> Valid(r)
  {
    if f.Value? then c.(currentHP := Clamp(c.currentHP + f.n, c.maxHP)) else c
  }

  /** All fields of a PUT body, in the order the handler applies them. */
  function Apply(c: Character, body: Changes): (r: Character)
    ensures r.id == c.id
    ensures Valid(c) ==> Valid(r)
    ensures body.name.None? || IsBlank(body.name.value) ==> r.name == c.name
    ensures body.name.Some? && !IsBlank(body.name.value) ==> r.name == Strip(body.name.value)
    ensures body.maxHP.Value? && body.maxHP.n > 0 ==> r.maxHP == body.maxHP.n
    ensures !(body.maxHP.Value? && body.maxHP.n > 0) ==> r.maxHP == c.maxHP
    ensures Valid(c) && !body.currentHP.Value? && !body.hpDelta.Value? ==>
              r.currentHP == if c.currentHP <= r.maxHP then c.currentHP else r.maxHP
    ensures body.currentHP.Value? && !body.hpDelta.Value? ==> r.currentHP == Clamp(body.currentHP.n, r.maxHP)
    ensures body.currentHP.Value? && body.hpDelta.Value? ==>
              r.currentHP == Clamp(Clamp(body.currentHP.n, r.maxHP) + body.hpDelta.n, r.maxHP)
    ensures Valid(c) && !body.currentHP.Value? && body.hpDelta.Value? ==>
              r.currentHP == Clamp((if c.currentHP <= r.maxHP then c.currentHP else r.maxHP) + body.hpDelta.n, r.maxHP)
  {
    Adjust(SetHP(Resize(Rename(c, body.name), body.maxHP), body.currentHP), body.hpDelta)
  }

  /**
   * PUT /api/characters/<id>. The first record with this id receives the
   * body's changes; every other record, and the order, stay as they were.
   */
  function Update(store: seq<Character>, id: Id, body: Changes): (r: Reply)
    ensures r.status.Updated? || r.status.NotFound?
    ensures r.status.NotFound? <==> !HasId(store, id)
    ensures r.status.NotFound? ==> r.store == store
    ensures |r.store| == |store|
    ensures r.status.Updated? ==>
              var i := FindIndex(store, id).value;
              && r.status.record.id == id
              && r.status.record == Apply(store[i], body)
              && r.store[i] == r.status.record
              && forall j :: 0 <= j < |store| && j != i ==> r.store[j] == store[j]
    ensures AllValid(store) ==> AllValid(r.store)
    ensures UniqueIds(store) ==> UniqueIds(r.store)
    ensures forall x :: HasId(r.store, x) <==> HasId(store, x)
  {
    match FindIndex(store, id)
    case None => Reply(store, NotFound)
    case Some(i) =>
      var c := Apply(store[i], body);
      ReplaceKeepsIds(store, i, c);
      Reply(store[i := c], Updated(c))
  }

  /**
   * DELETE /api/characters/<id>. Every record with this id is filtered out;
   * with unique ids that is exactly the one found, the rest keeping their order.
   */
  function Delete(store: seq<Character>, id: Id): (r: Reply)
    ensures r.status.Deleted? || r.status.NotFound?
    ensures r.status.NotFound? <==> !HasId(store, id)
    ensures r.status.NotFound? ==> r.store == store
    ensures !HasId(r.store, id)
    ensures forall c :: c in r.store <==> c in store && c.id != id
    ensures r.status.Deleted? ==> r.store == Without(store, id)
    ensures r.status.Deleted? && UniqueIds(store) ==>
              var i := FindIndex(store, id).value;
              r.store == store[..i] + store[i + 1..]
    ensures AllValid(store) ==> AllValid(r.store)
    ensures UniqueIds(store) ==> UniqueIds(r.store)
  {
    match FindIndex(store, id)
    case None => Reply(store, NotFound)
    case Some(i) =>
      WithoutFound(store, id);
      WithoutKeeps(store, id);
      Reply(Without(store, id), Deleted)
  }

  /** The body `{"currentHP": v}` the browser sends to set HP. */
  function SetBody(v: int): Changes {
    Changes(None, Absent, Value(v), Absent)
  }

  /** The body `{"hpDelta": d}` the browser sends to adjust HP. */
  function DeltaBody(d: int): Changes {
    Changes(None, Absent, Absent, Value(d))
  }

  /** Setting the same HP twice answers and stores exactly what setting it once did. */
  lemma UpdateSetIdempotent(store: seq<Character>, id: Id, v: int)
    ensures var once := Update(store, id, SetBody(v));
            Update(once.store, id, SetBody(v)) == once
  {
  }

  /**
   * Adjusting by `d` and then by `-d` restores the store, provided the first
   * adjustment crossed neither end of `[0, maxHP]`.
   */
  lemma UpdateDeltaRoundTrip(store: seq<Character>, id: Id, i: nat, d: int)
    requires FindIndex(store, id) == Some(i) && Valid(store[i])
    requires 0 <= store[i].currentHP + d <= store[i].maxHP
    ensures Update(Update(store, id, DeltaBody(d)).store, id, DeltaBody(-d)).store == store
  {
    var once := Update(store, id, DeltaBody(d));
    ReplaceKeepsIds(store, i, once.status.record);
    var twice := Update(once.store, id, DeltaBody(-d));
    assert twice.status.record == store[i];
  }

  /**
   * A body with no usable field (no name or a blank one, no positive maxHP,
   * no numeric currentHP or hpDelta) changes nothing.
   */
  lemma UpdateEmptyBody(store: seq<Character>, id: Id, b: Changes)
    requires b.name.None? || IsBlank(b.name.value)
    requires !(b.maxHP.Value? && b.maxHP.n > 0)
    requires !b.currentHP.Value? && !b.hpDelta.Value?
    ensures Update(store, id, b).store == store
  {
  }

  /** A second delete of the same id finds nothing and changes nothing. */
  lemma DeleteTwice(store: seq<Character>, id: Id)
    ensures var once := Delete(store, id);
            Delete(once.store, id) == Reply(once.store, NotFound)
  {
  }

  /** A created record is the one a later lookup by its id finds, at the end of the list. */
  lemma CreateThenFind(store: seq<Character>, name: Option<string>, maxHP: Field, freshId: Id)
    requires !HasId(store, freshId)
    ensures var r := Create(store, name, maxHP, freshId);
            r.status.Created? ==> FindIndex(r.store, freshId) == Some(|store|)
  {
  }
}

=== FILE: text.dfy ===
/**
 * Whitespace trimming as the two halves of the tracker perform it: the server
 * strips names with Python's `str.strip()`, the browser with JavaScript's
 * `String.prototype.trim()`. Both remove a maximal run of "space" characters
 * from each end; they differ only in which characters count as space.
 */
module Text {

  /** The characters for which Python's `str.isspace()` holds, i.e. what `str.strip()` removes. */
  predicate PySpace(c: char) {
    || '\U{9}' <= c <= '\U{d}'
    || '\U{1c}' <= c <= '\U{1f}'
    || c == ' ' || c == '\U{85}' || c == '\U{a0}' || c == '\U{1680}'
    || '\U{2000}' <= c <= '\U{200a}'
    || c == '\U{2028}' || c == '\U{2029}' || c == '\U{202f}' || c == '\U{205f}' || c == '\U{3000}'
  }

  /** WhiteSpace and LineTerminator code points of ECMAScript, i.e. what `trim()` removes. */
  predicate JsSpace(c: char) {
    || '\U{9}' <= c <= '\U{d}'
    || c == ' ' || c == '\U{a0}' || c == '\U{1680}'
    || '\U{2000}' <= c <= '\U{200a}'
    || c == '\U{2028}' || c == '\U{2029}' || c == '\U{202f}' || c == '\U{205f}' || c == '\U{3000}'
    || c == '\U{feff}'
  }

  /** Every character of `s` is space (vacuously so for the empty string). */
  predicate Blank(s: string, space: char -> bool) {
    forall i :: 0 <= i < |s| ==> space(s[i])
  }

  /** Length of the leading run of space characters. */
  function Lead(s: string, space: char -> bool): (n: nat)
    ensures n <= |s|
    ensures forall i :: 0 <= i < n ==> space(s[i])
    ensures n < |s| ==> !space(s[n])
    decreases |s|
  {
    if s != [] && space(s[0]) then 1 + Lead(s[1..], space) else 0
  }

  /** Length of the trailing run of space characters. */
  function Trail(s: string, space: char -> bool): (n: nat)
    ensures n <= |s|
    ensures forall i :: |s| - n <= i < |s| ==> space(s[i])
    ensures n < |s| ==> !space(s[|s| - 1 - n])
    decreases |s|
  {
    if s != [] && space(s[|s| - 1]) then 1 + Trail(s[..|s| - 1], space) else 0
  }

  /**
   * Both ends trimmed. The result is the contiguous piece of `s` between its
   * leading and trailing space runs, neither starting nor ending with space,
   * and it is empty exactly when `s` is all space.
   */
  function Trim(s: string, space: char -> bool): (r: string)
    ensures |r| <= |s|
    ensures r == [] <==> Blank(s, space)
    ensures r != [] ==> !space(r[0]) && !space(r[|r| - 1])
    ensures Lead(s, space) + |r| <= |s|
    ensures r != [] ==> r == s[Lead(s, space)..Lead(s, space) + |r|]
    ensures r != [] ==> Blank(s[Lead(s, space) + |r|..], space)
  {
    var a := Lead(s, space);
    if a == |s| then []
    else
      var b := Trail(s, space);
      s[a..|s| - b]
  }

  /** Trimming is idempotent: a trimmed string is its own trim. */
  lemma TrimIdempotent(s: string, space: char -> bool)
    ensures Trim(Trim(s, space), space) == Trim(s, space)
  {
  }
}

=== FILE: wrappers.dfy ===
/** Optional value, used for absent inputs and lookups that may miss. */
module Wrappers {

  datatype Option<+T> = None | Some(value: T) {

    /** The wrapped value, or `default` when there is none. */
    function GetOr(default: T): T {
      match this
      case Some(v) => v
      case None => default
    }
  }
}
